=== FILE: README.md ===
# Las Venturas Playground: commands, radio, decoration NPCs and red barrels

A Dafny model of five parts of the Las Venturas Playground game-mode JavaScript code:

- **Command descriptors and execution** (`CommandParameters`, `CommandExecution`).
  - `CommandParameter` and `CommandKey` render to help text. `ParseUsage` reads that text back, which shows the text says which name, default and optionality it stands for.
  - The command builder hands a finished description to its listener, or adds it to its parent command.
  - The executor follows sub-command tokens, asks the permission delegate about the level it reached, and runs that level's handler only when permission is granted.
- **Radio manager** (`Radio`).
  - The `radio/enabled` and `radio/restricted_to_vehicles` settings.
  - Eligibility: a player may listen while seated in a vehicle, or anywhere once the restriction is lifted.
  - Starting and stopping a player's stream, and the vehicle enter and leave events that start and stop it.
- **The `/radio` command** (`RadioCommandHandlers`).
  - Registration of `/radio` and `/radio options`, and which handler a typed line reaches.
  - The options menu, with its single selection mark.
  - Choosing a menu row.
  - The toggle, given as a function of the state it reads, with the handler proved equal to it.
- **Decoration NPCs** (`Decorations`).
  - Enabling an NPC, and refusing to enable it twice.
  - The vehicle its configuration asks for, and the configuration error.
  - Spawning into the main world.
  - Disposal on disconnection, and the delayed reconnect. The reconnect is guarded by the token of the enable that scheduled it.
- **Red barrels** (`Collectables`).
  - Per-player barrel objects, one for each barrel the player has not collected.
  - Clearing them, and shooting one of them.
  - The object manager's live-object count.

Three of the five parts are known only through their tests: `command_executor.test.js`, `radio_manager.test.js` and `red_barrels.test.js`. For these, the classes under test are modelled from what the tests assert and use. Each test case becomes a scenario method that builds fresh objects. Its postcondition states what the test asserts about the objects under test after each step. Assertions that only read back the fixture's settings or the player's vehicle follow from the fixture's own postcondition (`NewRadio`).

Two helper modules support the others:

- `Strings` (`strings.dfy`): `IndexOf` and a lemma about it.
- `Wrappers` (`wrappers.dfy`): `Option` and `Result`.

## Model

| member | source | states |
|---|---|---|
| CommandParameters.ParameterToString | javascript/components/commands/command_executor.test.js:90-109 | A required text parameter without a default renders as its bare name. Every other parameter renders bracketed, and ends in `?` exactly when it is optional and has no default. |
| CommandParameters.KeyToString | javascript/components/commands/command_executor.test.js:69-88 | A required text key renders as its bare name. Every other key renders bracketed. |
| CommandParameters.BracketedRoundTrip | javascript/components/commands/command_executor.test.js:90-95 | `[name]` reads back as a required argument called `name`. |
| CommandParameters.DefaultedRoundTrip | javascript/components/commands/command_executor.test.js:97-102 | `[name=default]` reads back as `name` with that default, whatever the default text holds. |
| CommandParameters.ParameterUsage | javascript/components/commands/command_executor.test.js:90-109 | Parameter help text reads back as one of four forms:<br>• a parameter with a default reads back as that name with that default, whether or not it is optional;<br>• otherwise an optional parameter reads back as optional;<br>• otherwise a text parameter reads back as the bare word;<br>• otherwise it reads back as required. |
| CommandParameters.KeyUsage | javascript/components/commands/command_executor.test.js:69-88 | Key help text reads back as one of four forms:<br>• a required text key is the bare word;<br>• an optional player key defaults to `you`;<br>• any other optional key is optional;<br>• any other required key is required. |
| CommandParameters.ParameterToStringInjective | javascript/components/commands/command_executor.test.js:90-109 | Two parameters that render alike have the same name and the same default text. Without a default, they also agree on optionality, and required ones agree on whether they are text. |
| CommandParameters.RenderingExamples | javascript/components/commands/command_executor.test.js:68-110 | The six renderings the test expects: `foo`, `[foo]`, `[foo=you]`, `[foo]`, `[foo=5]` and `[foo]?`. |
| CommandExecution.SplitFirstToken | javascript/components/commands/command_executor.test.js:58 | The token holds no space. The input is the token alone, or the token, one space and the rest. Input without a space is all token. |
| CommandExecution.Resolve | javascript/components/commands/command_executor.test.js:58 | The text left for the resolved level's parameters is a tail of the typed text. |
| CommandExecution.CommandManager.Register | javascript/components/commands/command_executor.test.js:42-48 | The listener keeps the finished description under its name. An earlier one of that name is replaced. |
| CommandExecution.CommandManager.RemoveCommand | javascript/features/radio/radio_commands.js:92-94 | The named command is gone and every other registration is kept. |
| CommandExecution.CommandManager.BuildCommand | javascript/components/commands/command_executor.test.js:42-48 | A fresh root builder with prefix `/`, the given name and this manager as listener, with nothing accumulated yet. |
| CommandExecution.CommandBuilder.Description | javascript/components/commands/command_executor.test.js:54-55 | Sets the description. Parameters and sub-commands are unchanged. |
| CommandExecution.CommandBuilder.Sub | javascript/features/radio/radio_commands.js:17-18 | A fresh, blank builder. It shares the listener and prefix, and its parent is this builder. |
| CommandExecution.CommandBuilder.Build | javascript/features/radio/radio_commands.js:17-20 | A root builder registers its finished description with the listener and returns nothing. A sub-builder appends its description to the parent's sub-commands and returns the parent. |
| CommandExecution.CommandExecutor.ExecuteCommand | javascript/components/commands/command_executor.test.js:28-33 | When the delegate grants permission for the resolved level, that level's handler runs exactly once, with the remaining text. Otherwise the result is `false` and no handler runs. |
| CommandExecution.RunCount | javascript/components/commands/command_executor.test.js:51-65 | The test's `counter`: no larger than the number of invocations, and zero exactly when the handler never ran. |
| CommandExecution.PermissionDelegate.CanExecuteCommand | javascript/components/commands/command_executor.test.js:29-33 | The test's permission delegate grants exactly while `allowed` is set, whatever the player and command. |
| CommandExecution.RunCountAfter | javascript/components/commands/command_executor.test.js:51-65 | One more run of a handler raises its count by one. A run of another handler leaves the count as it was. |
| CommandExecution.BasicCommandScenario | javascript/components/commands/command_executor.test.js:50-66 | The granted call is handled and the counter is then 1. The denied call yields `false` and the counter stays at 1. |
| Radio.ChannelSelection.DefaultChannel | javascript/features/radio/radio_manager.test.js:64 | There is a default channel exactly when channels are configured, and it is the first one. |
| Radio.Settings.constructor | javascript/features/radio/radio_manager.test.js:46 | Both settings start out true. |
| Radio.Settings.SetRadioEnabled | javascript/features/radio/radio_manager.test.js:49-51 | Sets `radio/enabled` and leaves the vehicle restriction alone. |
| Radio.Settings.SetRestrictedToVehicles | javascript/features/radio/radio_manager.test.js:128-130 | Sets `radio/restricted_to_vehicles` and leaves `radio/enabled` alone. |
| Radio.Player.EnterVehicle | javascript/features/radio/radio_manager.test.js:81 | The player sits in the given vehicle and seat. |
| Radio.Player.LeaveVehicle | javascript/features/radio/radio_manager.test.js:86 | The player is on foot. |
| Radio.RadioManager.constructor | javascript/features/radio/radio_manager.test.js:29 | The manager starts with nobody listening and no preferences. |
| Radio.RadioManager.IsEnabled | javascript/features/radio/radio_manager.test.js:45-53 | The feature is on exactly while the `radio/enabled` setting is. |
| Radio.RadioManager.IsEligible | javascript/features/radio/radio_manager.test.js:71-104 | A player seated in a vehicle is always eligible. A player on foot is eligible exactly when the vehicle restriction is off. |
| Radio.RadioManager.IsListening | javascript/features/radio/radio_manager.test.js:55-69 | A player listens exactly when they have a current channel. |
| Radio.RadioManager.GetCurrentChannelForPlayer | javascript/features/radio/radio_commands.js:81 | There is a current channel exactly when the player is listening, and it is the channel they were tuned to. |
| Radio.RadioManager.GetPreferredChannelForPlayer | javascript/features/radio/radio_commands.js:35 | Without an explicit choice, the preferred channel is the default channel. |
| Radio.RadioManager.SetPreferredChannelForPlayer | javascript/features/radio/radio_commands.js:41 | Records the choice for this player only. Choosing nothing means the player disabled the radio. Reading the preference back yields the choice. |
| Radio.RadioManager.StartRadio | javascript/features/radio/radio_manager.test.js:62-64 | The player listens to their preferred channel and their client plays its stream. The manager and the client stay in step. |
| Radio.RadioManager.StopRadio | javascript/features/radio/radio_manager.test.js:66-68 | The player no longer listens and their stream is cleared. The manager and the client stay in step. |
| Radio.RadioManager.OnPlayerEnterVehicle | javascript/features/radio/radio_manager.test.js:81-84 | While enabled and eligible, the radio starts on the preferred channel. Otherwise, or when the player has no preferred channel, nothing changes. |
| Radio.RadioManager.OnPlayerLeaveVehicle | javascript/features/radio/radio_manager.test.js:86-89 | The player stops listening and their stream is cleared. |
| Radio.PlayerEntersVehicle | javascript/features/radio/radio_manager.test.js:80-97 | After entering any seat the player is eligible. With the radio enabled and a preferred channel, they listen to the preferred channel and play its stream. Otherwise nothing changes. Either way no other player starts or stops listening. |
| Radio.PlayerLeavesVehicle | javascript/features/radio/radio_manager.test.js:86-102 | After leaving, the player is not listening and has no stream, and every other player listens as before. Under the restriction they are not eligible either. |
| Radio.NewRadio | javascript/features/radio/radio_manager.test.js:16-38 | The test fixture: one `LVP Radio` channel, both settings on, and a player on foot without a stream. |
| Radio.EnabledScenario | javascript/features/radio/radio_manager.test.js:45-53 | `isEnabled()` follows the `radio/enabled` setting. |
| Radio.StartStopScenario | javascript/features/radio/radio_manager.test.js:55-69 | Start then stop gives not listening, then listening to the default stream, then not listening with no stream. |
| Radio.VehicleScenario | javascript/features/radio/radio_manager.test.js:71-104 | Before entering, the feature is on and the player is neither listening nor eligible and has no stream. The player then enters as driver, leaves, enters as passenger and leaves, on one fixture. Inside they are listening and eligible with the default stream each time. Once out they are neither, and have no stream. |
| Radio.DisabledScenario | javascript/features/radio/radio_manager.test.js:106-120 | With the feature off, the player is not listening before entering a vehicle, and entering starts nothing. |
| Radio.RestrictionScenario | javascript/features/radio/radio_manager.test.js:122-132 | A player on foot becomes eligible once the vehicle restriction is lifted. |
| RadioCommandHandlers.RadioCommandDescription | javascript/features/radio/radio_commands.js:17-20 | `/radio` has exactly one sub-command, and it is named `options`. |
| RadioCommandHandlers.RadioRouting | javascript/features/radio/radio_commands.js:15-20 | A line whose first token is `options` reaches the options handler with the rest of the line. Any other line, including an empty one, reaches the toggle handler with all of it. |
| RadioCommandHandlers.RadioRoutingExamples | javascript/features/radio/radio_commands.js:17-20 | `options` reaches the options handler and the empty line reaches the toggle handler. |
| RadioCommandHandlers.OptionsMenuItems | javascript/features/radio/radio_commands.js:34-56 | One row per channel in selection order, each selecting its channel. The last row disables the radio. |
| RadioCommandHandlers.SelectionMark | javascript/features/radio/radio_commands.js:37-49 | Which row carries the mark:<br>• a preference for a configured channel marks exactly that channel's row;<br>• no preference marks exactly the disable row;<br>• a preference for a channel that is no longer configured marks nothing. |
| RadioCommandHandlers.RadioCommandGuards | javascript/features/radio/radio_commands.js:64-74 | With the feature off, the only message is the disabled notice. An ineligible player gets the refusal and then the advertisement. In both cases listening is unchanged. |
| RadioCommandHandlers.RadioCommandToggles | javascript/features/radio/radio_commands.js:76-89 | Listening flips, and the message says `stopped` or `started`. It names the channel stopped or the channel started, and the advertisement follows it. |
| RadioCommandHandlers.RadioCommands.constructor | javascript/features/radio/radio_commands.js:11-20 | Registers `/radio`, with its `options` sub-command, with the command manager. |
| RadioCommandHandlers.RadioCommands.OnRadioOptionsCommand | javascript/features/radio/radio_commands.js:28-59 | With the feature off, the disabled notice is the only output. Otherwise the menu `In-game radio options` with columns `Channel` and `Selected` and the rows of `OptionsMenuItems`. |
| RadioCommandHandlers.RadioCommands.OnMenuItemChosen | javascript/features/radio/radio_commands.js:40-56 | A channel row makes that channel the player's preference. The disable row records that the player has none. Either way the confirmation box says which. |
| RadioCommandHandlers.RadioCommands.OnRadioCommand | javascript/features/radio/radio_commands.js:63-90 | The messages and the player's channel afterwards are exactly `RadioCommandOutcome` of the state before. Nobody else starts or stops listening, and other players' channels are unchanged. |
| RadioCommandHandlers.RadioCommands.Dispose | javascript/features/radio/radio_commands.js:92-94 | `/radio` is unregistered. |
| RadioCommandHandlers.RadioRoutingScenario | javascript/features/radio/radio_commands.js:17-20 | Through a granting executor, `/radio options` is handled by the options handler and `/radio` by the toggle handler. |
| Decorations.VehicleRequestFor | javascript/features/decorations/decoration_npc.js:97-117 | The configured vehicle:<br>• no vehicle without an appearance or a vehicle entry;<br>• an error exactly when the vehicle entry lacks a numeric model;<br>• otherwise that model, at the NPC's position and rotation, with its name as number plate;<br>• the configured colours, or the random ones where none is configured. |
| Decorations.EntityFactory.CreateNpc | javascript/features/decorations/decoration_npc.js:34-38 | Records the request and returns a new NPC handle. |
| Decorations.EntityFactory.CreateVehicle | javascript/features/decorations/decoration_npc.js:109-116 | Records the request and returns a new vehicle handle. |
| Decorations.EntityFactory.DisposeVehicle | javascript/features/decorations/decoration_npc.js:71 | Records that the vehicle was disposed of. |
| Decorations.DecorationNpc.constructor | javascript/features/decorations/decoration_npc.js:16-25 | A new decoration is disabled, with no NPC, token or vehicle. |
| Decorations.DecorationNpc.Enable | javascript/features/decorations/decoration_npc.js:29-41 | Enabling an enabled NPC fails and changes nothing. Otherwise it creates one NPC from the name and script and takes a token never issued before. |
| Decorations.DecorationNpc.CreateVehicle | javascript/features/decorations/decoration_npc.js:97-117 | Creates exactly the vehicle `VehicleRequestFor` asks for. It creates nothing when that is none or an error. |
| Decorations.DecorationNpc.OnNpcConnected | javascript/features/decorations/decoration_npc.js:46-51 | Does nothing while disabled. Otherwise the NPC's vehicle becomes the one created, or none. A configuration error leaves it as it was. |
| Decorations.DecorationNpc.OnNpcSpawn | javascript/features/decorations/decoration_npc.js:55-60 | The NPC is in virtual world 0, and in its vehicle when it has one. |
| Decorations.DecorationNpc.OnNpcDisconnected | javascript/features/decorations/decoration_npc.js:64-78 | Does nothing while disabled. Otherwise its vehicle is disposed of and forgotten, and the reconnect is scheduled with the current token. |
| Decorations.DecorationNpc.FireReconnect | javascript/features/decorations/decoration_npc.js:78-90 | The NPC is recreated exactly when it is still enabled with the token captured at disconnection. Otherwise nothing is created. |
| Decorations.DecorationNpc.Disable | javascript/features/decorations/decoration_npc.js:123-127 | Forgets the entity set, the NPC and the vehicle. |
| Decorations.StaleReconnectScenario | javascript/features/decorations/decoration_npc.js:64-91 | After disconnect, disable and re-enable, the pending reconnect creates nothing: two NPCs in all. |
| Decorations.ReconnectScenario | javascript/features/decorations/decoration_npc.js:78-90 | With nothing in between, the reconnect creates the NPC again. |
| Decorations.DisabledReconnectScenario | javascript/features/decorations/decoration_npc.js:79-80 | After disconnect and disable, the reconnect creates nothing. |
| Decorations.DoubleEnableScenario | javascript/features/decorations/decoration_npc.js:29-31 | A second enable fails. Enabling after a disable succeeds. |
| Collectables.ObjectManager.constructor | javascript/features/collectables/red_barrels.test.js:35 | The server starts with `existing` live objects. |
| Collectables.ObjectManager.CreateObject | javascript/entities/test/mock_game_object.js:21-28 | A new object gets an id not in use before, and the count rises by one. |
| Collectables.ObjectManager.DisposeObject | javascript/features/collectables/red_barrels.test.js:82-83 | The object is no longer connected. The count drops by one when it was live. |
| Collectables.ObjectManager.DisposeObjects | javascript/features/collectables/red_barrels.test.js:52-54 | Exactly the given live objects are removed, and the count drops by their number. |
| Collectables.Uncollected | javascript/features/collectables/red_barrels.test.js:39-46 | A barrel is spawned exactly when its index is below the barrel count and it is not in the collected set. |
| Collectables.UncollectedBounds | javascript/features/collectables/red_barrels.test.js:43-49 | What spawns, by what was collected:<br>• with nothing collected, every barrel spawns;<br>• collecting any barrel spawns strictly fewer;<br>• while some barrel remains, at least one spawns. |
| Collectables.SpawnBarrels | javascript/features/collectables/red_barrels.test.js:39-46 | One new object for each uncollected barrel, mapped to the barrel it stands for. The object count rises by exactly that many. |
| Collectables.RedBarrels.constructor | javascript/features/collectables/red_barrels.test.js:24 | No player has barrels. |
| Collectables.RedBarrels.ClearCollectablesForPlayer | javascript/features/collectables/red_barrels.test.js:52-54 | The player's barrels are disposed of and forgotten, and the count drops by their number. Other players keep theirs. |
| Collectables.RedBarrels.RefreshCollectablesForPlayer | javascript/features/collectables/red_barrels.test.js:39-49 | The player's old barrels are replaced by one new object per uncollected barrel. The live objects afterwards are exactly those before, without the old barrels and with the new ones, so the count moves by the difference. Other players keep theirs, and no object belongs to two players. |
| Collectables.RedBarrels.OnPlayerShootObject | javascript/features/collectables/red_barrels.test.js:77-83 | Shooting one of the player's barrels collects it, disconnects it and lowers the count by one. Every other object stays live. Shooting anything else changes nothing. |
| Collectables.RefreshScenario | javascript/features/collectables/red_barrels.test.js:32-55 | Spawning all barrels raises the count. Spawning all but the first fifty leaves it strictly between. Clearing restores it exactly. |
| Collectables.ShootScenario | javascript/features/collectables/red_barrels.test.js:57-84 | Spawning the player's barrels raises the count above the baseline. One of their barrels is connected before it is shot and disconnected after, and the count drops by one. |

## Left out

**Commands**

- Argument binding and type coercion are not modelled. This covers numbers, player lookup, defaults, optional arguments and key values. Handlers receive the unparsed remainder of the line.
- Only the first space-separated token is compared against sub-command names. When sibling sub-commands overlap, the first one declared wins.
- A handler's own return value is not modelled. A granted execution yields the handler's name.
- The context delegate and the player object are not modelled. The permission delegate of the test answers with a variable.
- These sources are not part of this model:
  - `command_parameter.js`, `command_key.js`, `command_builder.js` and `command_executor.js`;
  - `radio_manager.js` and `channel_selection.js`;
  - `red_barrels.js` and the object manager.

  Their behaviour is taken from what the tests assert. Several choices are inferred from that:
  - How a key renders beyond the three cases the test shows.
  - A required text key renders its name. The test's only such key has the name and the value both `foo`, so it cannot tell which is rendered. The model keeps the key's `value` but never renders it.
  - A required text parameter without a default renders as its bare name, as a required text key does. The test shows only number parameters.
  - The default channel is the first configured channel.
  - Starting the radio for a player who disabled it does nothing.
  - Leaving a vehicle stops the radio.
  - Registering a command replaces one of the same name.
  - Shooting an object that is not one of the shooter's own barrels changes nothing, even when it is another player's barrel. The test only shoots the shooter's own barrel.

**Radio**

- Asynchronous menu and dialog display are not modelled. The menu and the message box are returned as values.
- Message formatting is not modelled. Messages are a datatype.
- The announce and settings features are reduced to two booleans.
- `radio_commands.js` compares channels by object identity. The model compares them by value, so `SelectionMark` asks for distinct channels.
- `radio_commands.js` takes the channel list from a separate `selection`. The model reads the manager's own selection, which the feature shares.
- RadioCommandHandlers.RadioCommands.OnRadioCommand: `channel.name` on a null channel throws in the source. This happens for an eligible player who is not listening and has disabled the radio, assuming starting then does nothing. The model returns `Err(NoCurrentChannel)` there, before any message is sent.

**Decoration NPCs**

- Timers are not modelled. The 30-second reconnect delay is the separate call `FireReconnect`, with the token captured at disconnection.
- Tokens are counter values rather than `Symbol`s.
- Logging and `server.isTest()` are not modelled.
- Positions and rotations are integers rather than floating point.
- The comment above `createVehicle` in `decoration_npc.js` says a missing or invalid configuration yields null. The code returns null only when there is no appearance or no vehicle entry, and throws when the model is missing or not a number. The model follows the code: `Err(InvalidVehicleModel(name))` stands for that throw.
- `random(124)` becomes the `randomPrimary` and `randomSecondary` parameters, which may be any integers. Their range is not modelled, since `base/random.js` is not part of this model.
- Configured numbers are integers (`NumberValue`). The source's `typeof settings.modelId === 'number'` check also accepts fractional numbers, which the model cannot express.
- `onNpcConnected` and `onNpcSpawn` receive the NPC itself. The model keeps only the player's virtual world and vehicle.

**Red barrels**

- Barrel positions, rotations and the achievement test, whose body is empty, are not modelled.
- The dispose in the test's `afterEach` is not modelled.
- Object ids come from a counter in the model as in `mock_game_object.js`, without the global sharing across tests.
- Collectables.RedBarrels.RefreshCollectablesForPlayer: freshness of the new objects is stated only against the objects left after clearing. The model also never reuses the cleared ids, but the contract does not say so.

**Context files**

- `punishments.js`, `abuse.js` and `player_stats_view.js` are context only and are not modelled.

=== FILE: command_executor.dfy ===
/**
 * Command descriptions, the fluent builder that assembles them, the command manager that the
 * finished descriptions are handed to, and the executor that resolves a sub-command, asks the
 * permission delegate and then runs the handler.
 *
 * Handlers are application code; the model names each by a string and the executor records
 * every handler it runs, so "the handler ran once" reads as one more entry in that record.
 */
module CommandExecution {
  import opened Wrappers
  import opened Strings
  import opened CommandParameters

  type HandlerName = string

  /** An immutable, built command: its own level plus its nested sub-commands. */
  datatype CommandDescription = CommandDescription(
    name: string,
    prefix: string,
    description: string,
    parameters: seq<CommandParameter>,
    subCommands: seq<CommandDescription>,
    handler: HandlerName)

  /** The level of a command that input resolved to, and the text left for its parameters. */
  datatype Resolution = Resolution(command: CommandDescription, arguments: string)

  /** What a call of the executor yields: the handler's result, or `false`. */
  datatype ExecutionResult = Handled(handler: HandlerName) | Denied

  /** One run of a handler: who invoked it and the text given to it. */
  datatype Invocation = Invocation(player: nat, handler: HandlerName, arguments: string)

  // ---------------------------------------------------------------------------------------------
  // Resolution.

  /** Splits off the first space-delimited token; the rest follows that space. */
  function SplitFirstToken(text: string): (r: (string, string))
    ensures ' ' !in r.0
    ensures text == r.0 || text == r.0 + " " + r.1
    ensures text == r.0 ==> r.1 == ""
    ensures ' ' !in text ==> r == (text, "")
  {
    match IndexOf(text, ' ')
    case None => (text, "")
    case Some(k) =>
      assert text == text[..k] + " " + text[k + 1..];
      (text[..k], text[k + 1..])
  }

  /** The first sub-command called `name`, if any. */
  function FindSubCommand(subCommands: seq<CommandDescription>, name: string): (r: Option<nat>)
    ensures r.Some? ==> r.value < |subCommands| && subCommands[r.value].name == name
    ensures r.Some? ==> forall j :: 0 <= j < r.value ==> subCommands[j].name != name
    ensures r.None? ==> forall j :: 0 <= j < |subCommands| ==> subCommands[j].name != name
  {
    if |subCommands| == 0 then None
    else if subCommands[0].name == name then Some(0)
    else match FindSubCommand(subCommands[1..], name)
      case None => None
      case Some(k) => Some(k + 1)
  }

  /**
   * Follows literal sub-command tokens down the description tree, in preference to binding
   * them as arguments; the arguments of the level reached are what remains of the input.
   */
  function Resolve(command: CommandDescription, text: string): (r: Resolution)
    ensures IsSuffix(r.arguments, text)
    decreases command
  {
    var (token, rest) := SplitFirstToken(text);
    match FindSubCommand(command.subCommands, token)
    case Some(i) =>
      var r := Resolve(command.subCommands[i], rest);
      RestIsSuffix(token, rest, text);
      SuffixTransitive(r.arguments, rest, text);
      r
    case None => Resolution(command, text)
  }

  /** `s` is a tail of `t`. */
  predicate IsSuffix(s: string, t: string) {
    |s| <= |t| && s == t[|t| - |s|..]
  }

  lemma RestIsSuffix(token: string, rest: string, text: string)
    requires text == token || text == token + " " + rest
    requires text == token ==> rest == ""
    ensures IsSuffix(rest, text)
  {
    if text != token {
      assert text[|text| - |rest|..] == rest;
    }
  }

  lemma SuffixTransitive(a: string, b: string, c: string)
    requires IsSuffix(a, b) && IsSuffix(b, c)
    ensures IsSuffix(a, c)
  {
    assert c[|c| - |a|..] == c[|c| - |b|..][|b| - |a|..];
  }

  /** Times `handler` occurs in a record of invocations: the test's counter. */
  function RunCount(log: seq<Invocation>, handler: HandlerName): (n: nat)
    ensures n <= |log|
    ensures n == 0 <==> forall i :: 0 <= i < |log| ==> log[i].handler != handler
  {
    if |log| == 0 then 0
    else (if log[0].handler == handler then 1 else 0) + RunCount(log[1..], handler)
  }

  // ---------------------------------------------------------------------------------------------
  // Registration.

  /** Receives finished descriptions, keyed by command name, and can remove them again. */
  class CommandManager {
    var commands: map<string, CommandDescription>

    constructor ()
      ensures commands == map[]
    {
      commands := map[];
    }

    /** The builder's listener: the finished description replaces any of the same name. */
    method Register(description: CommandDescription)
      modifies this
      ensures commands == old(commands)[description.name := description]
    {
      commands := commands[description.name := description];
    }

    method RemoveCommand(name: string)
      modifies this
      ensures commands == old(commands) - {name}
    {
      commands := commands - {name};
    }

    /** Starts a builder for a `/` command whose listener is this manager. */
    method BuildCommand(name: string) returns (builder: CommandBuilder)
      ensures fresh(builder) && builder.Blank(this, name, "/") && builder.parent == null
    {
      builder := new CommandBuilder.Root(this, name, "/");
    }
  }

  /**
   * Accumulates one level of a command. A root builder hands the finished description to its
   * listener; a sub-command builder adds it to its parent and returns the parent.
   */
  class CommandBuilder {
    const listener: CommandManager
    const parent: CommandBuilder?
    const name: string
    const prefix: string
    var description: string
    var parameters: seq<CommandParameter>
    var subCommands: seq<CommandDescription>

    /** A builder that has not accumulated anything yet. */
    ghost predicate Blank(listener: CommandManager, name: string, prefix: string)
      reads this
    {
      this.listener == listener && this.name == name && this.prefix == prefix &&
      description == "" && parameters == [] && subCommands == []
    }

    constructor Root(listener: CommandManager, name: string, prefix: string)
      ensures Blank(listener, name, prefix) && parent == null
    {
      this.listener := listener;
      this.parent := null;
      this.name := name;
      this.prefix := prefix;
      description := "";
      parameters := [];
      subCommands := [];
    }

    constructor Nested(parent: CommandBuilder, name: string)
      ensures Blank(parent.listener, name, parent.prefix) && this.parent == parent
    {
      this.listener := parent.listener;
      this.parent := parent;
      this.name := name;
      this.prefix := parent.prefix;
      description := "";
      parameters := [];
      subCommands := [];
    }

    /** What this level describes once built with `handler`. */
    ghost function Finished(handler: HandlerName): CommandDescription
      reads this
    {
      CommandDescription(name, prefix, description, parameters, subCommands, handler)
    }

    method Description(text: string)
      modifies this
      ensures description == text
      ensures parameters == old(parameters) && subCommands == old(subCommands)
    {
      description := text;
    }

    /** Opens a builder for a sub-command that shares this command's prefix. */
    method Sub(subName: string) returns (sub: CommandBuilder)
      ensures fresh(sub) && sub.Blank(listener, subName, prefix) && sub.parent == this
    {
      sub := new CommandBuilder.Nested(this, subName);
    }

    /**
     * Finishes this level with `handler`. At the root the description goes to the listener and
     * nothing is returned; at a sub-level it is appended to the parent, which is returned.
     */
    method Build(handler: HandlerName) returns (next: CommandBuilder?)
      requires parent != this
      modifies if parent == null then {listener} else {parent}
      ensures parent == null ==> (next == null &&
        listener.commands == old(listener.commands)[name := old(Finished(handler))])
      ensures parent != null ==> (next == parent &&
        parent.subCommands == old(parent.subCommands) + [old(Finished(handler))] &&
        parent.description == old(parent.description) &&
        parent.parameters == old(parent.parameters))
    {
      var built := CommandDescription(name, prefix, description, parameters, subCommands, handler);
      if parent == null {
        listener.Register(built);
        next := null;
      } else {
        parent.subCommands := parent.subCommands + [built];
        next := parent;
      }
    }
  }

  // ---------------------------------------------------------------------------------------------
  // Execution.

  /** The test's permission delegate: its answer is whatever `allowed` currently holds. */
  class PermissionDelegate {
    var allowed: bool

    constructor (allowed: bool)
      ensures this.allowed == allowed
    {
      this.allowed := allowed;
    }

    /** The test's delegate: whatever the player and command, the answer is `allowed`. */
    predicate CanExecuteCommand(player: nat, command: CommandDescription): (granted: bool)
      reads this
      ensures granted <==> allowed
    {
      allowed
    }
  }

  class CommandExecutor {
    const permissionDelegate: PermissionDelegate
    var invocations: seq<Invocation>

    constructor (permissionDelegate: PermissionDelegate)
      ensures this.permissionDelegate == permissionDelegate && invocations == []
    {
      this.permissionDelegate := permissionDelegate;
      invocations := [];
    }

    /**
     * Resolves `text` against `command`, asks the permission delegate about the level reached
     * and runs that level's handler only when permission is granted; otherwise yields `false`
     * and leaves the record of handler runs as it was.
     */
    method ExecuteCommand(player: nat, command: CommandDescription, text: string)
      returns (r: ExecutionResult)
      modifies this
      ensures var target := Resolve(command, text);
        if permissionDelegate.CanExecuteCommand(player, target.command) then
          r == Handled(target.command.handler) &&
          invocations == old(invocations) + [Invocation(player, target.command.handler, target.arguments)]
        else
          r == Denied && invocations == old(invocations)
    {
      var target := Resolve(command, text);
      if !permissionDelegate.CanExecuteCommand(player, target.command) {
        return Denied;
      }
      invocations := invocations + [Invocation(player, target.command.handler, target.arguments)];
      r := Handled(target.command.handler);
    }
  }

  /** A granted execution runs its handler exactly once more; a denied one runs nothing. */
  lemma {:induction false} RunCountAfter(log: seq<Invocation>, run: Invocation, handler: HandlerName)
    ensures RunCount(log + [run], handler) == RunCount(log, handler) + (if run.handler == handler then 1 else 0)
  {
    if |log| > 0 {
      assert (log + [run])[1..] == log[1..] + [run];
      RunCountAfter(log[1..], run, handler);
    }
  }

  /**
   * The executor test: a parameterless `/test` command, built through a builder whose listener
   * keeps the description, runs once with permission and not at all once permission is denied.
   */
  method BasicCommandScenario()
    returns (first: ExecutionResult, counterAfterFirst: nat, second: ExecutionResult, counter: nat)
    ensures first.Handled? && counterAfterFirst == 1
    ensures second == Denied && counter == 1
  {
    var manager := new CommandManager();
    var permission := new PermissionDelegate(true);
    var executor := new CommandExecutor(permission);

    var builder := manager.BuildCommand("test");
    builder.Description("This is a test command");
    var _ := builder.Build("test handler");
    var command := manager.commands["test"];

    first := executor.ExecuteCommand(1, command, "");
    RunCountAfter([], executor.invocations[0], "test handler");
    counterAfterFirst := RunCount(executor.invocations, "test handler");

    permission.allowed := false;
    second := executor.ExecuteCommand(1, command, "");
    counter := RunCount(executor.invocations, "test handler");
  }
}

=== FILE: command_parameter.dfy ===
/**
 * The immutable descriptors of a command's arguments, `CommandParameter` and `CommandKey`, and
 * the help text they render to. The rendering is read back by `ParseUsage`, which is how the
 * lemmas below show that the help text says which name, default and optionality it stands for.
 */
module CommandParameters {
  import opened Wrappers
  import opened Strings

  /** The argument kinds (`kTypeText`, `kTypeNumber`, `kTypePlayer`). */
  datatype ParameterType = Text | Number | Player

  /** A configured value, such as the default of a parameter. */
  datatype Literal = NumberLiteral(n: int) | TextLiteral(s: string)

  datatype CommandParameter = CommandParameter(
    name: string,
    parameterType: ParameterType,
    optional: bool,
    defaultValue: Option<Literal>)

  datatype CommandKey = CommandKey(
    name: string,
    keyType: ParameterType,
    optional: bool,
    value: Option<Literal>)

  /** What a piece of help text says about the argument it describes. */
  datatype Usage =
    | Bare(name: string)                        // `name`
    | Required(name: string)                    // `[name]`
    | Defaulted(name: string, default: string)  // `[name=default]`
    | Optional(name: string)                    // `[name]?`

  // ---------------------------------------------------------------------------------------------
  // Decimal rendering of numbers, as a template string does it.

  function DigitChar(d: nat): (c: char)
    requires d < 10
    ensures '0' <= c <= '9'
  {
    "0123456789"[d]
  }

  predicate IsDigits(s: string) {
    forall i :: 0 <= i < |s| ==> '0' <= s[i] <= '9'
  }

  function NatToString(n: nat): (r: string)
    ensures |r| > 0 && IsDigits(r)
    ensures n < 10 <==> |r| == 1
  {
    if n < 10 then [DigitChar(n)] else NatToString(n / 10) + [DigitChar(n % 10)]
  }

  function LiteralToString(v: Literal): (r: string)
    ensures v.NumberLiteral? ==> |r| > 0 && (r[0] == '-' <==> v.n < 0)
  {
    match v
    case NumberLiteral(n) => if n < 0 then "-" + NatToString(-n) else NatToString(n)
    case TextLiteral(s) => s
  }

  // ---------------------------------------------------------------------------------------------
  // Help text.

  /**
   * The help text of a parameter. A default decides the form whatever `optional` says; a
   * required text parameter without one is its bare name.
   */
  function ParameterToString(p: CommandParameter): (r: string)
    ensures p.defaultValue.None? && !p.optional && p.parameterType == Text ==> r == p.name
    ensures !(p.defaultValue.None? && !p.optional && p.parameterType == Text) ==>
      |r| >= 2 && r[0] == '[' && (r[|r| - 1] == '?' <==> p.defaultValue.None? && p.optional)
  {
    if p.defaultValue.Some? then "[" + p.name + "=" + LiteralToString(p.defaultValue.value) + "]"
    else if p.optional then "[" + p.name + "]?"
    else if p.parameterType == Text then p.name
    else "[" + p.name + "]"
  }

  /** The help text of a key: a required text key is the literal word itself. */
  function KeyToString(k: CommandKey): (r: string)
    ensures k.keyType == Text && !k.optional ==> r == k.name
    ensures !(k.keyType == Text && !k.optional) ==> |r| >= 2 && r[0] == '['
  {
    if k.keyType == Text && !k.optional then k.name
    else if k.keyType == Player && k.optional then "[" + k.name + "=you]"
    else if k.optional then "[" + k.name + "]?"
    else "[" + k.name + "]"
  }

  /** Reads help text back into what it says about the argument. */
  function ParseUsage(s: string): (usage: Option<Usage>) {
    if |s| == 0 then None
    else if s[0] != '[' then Some(Bare(s))
    else if |s| >= 3 && s[|s| - 1] == '?' && s[|s| - 2] == ']' then Some(Optional(s[1..|s| - 2]))
    else if |s| >= 2 && s[|s| - 1] == ']' then
      var inner := s[1..|s| - 1];
      match IndexOf(inner, '=')
      case Some(k) => Some(Defaulted(inner[..k], inner[k + 1..]))
      case None => Some(Required(inner))
    else None
  }

  /** A name that help text can carry unambiguously: no brackets, `=` or `?` in it. */
  predicate IsPlainName(name: string) {
    forall i :: 0 <= i < |name| ==> name[i] !in "[]=?"
  }

  lemma BracketedRoundTrip(name: string)
    requires IsPlainName(name)
    ensures ParseUsage("[" + name + "]") == Some(Required(name))
  {
    var s := "[" + name + "]";
    assert s[1..|s| - 1] == name;
  }

  lemma DefaultedRoundTrip(name: string, default: string)
    requires IsPlainName(name)
    ensures ParseUsage("[" + name + "=" + default + "]") == Some(Defaulted(name, default))
  {
    var s := "[" + name + "=" + default + "]";
    var inner := s[1..|s| - 1];
    assert inner == name + ['='] + default;
    IndexOfAfterPrefix(name, '=', default);
    assert inner[..|name|] == name;
    assert inner[|name| + 1..] == default;
  }

  /**
   * The help text of a parameter names it and states its default, or, when it has none,
   * whether it is optional and, when required, whether it is text: a default always shows as
   * `[name=default]`, even on a parameter that is not optional.
   */
  lemma ParameterUsage(p: CommandParameter)
    requires IsPlainName(p.name) && |p.name| > 0
    ensures p.defaultValue.Some? ==>
      ParseUsage(ParameterToString(p)) == Some(Defaulted(p.name, LiteralToString(p.defaultValue.value)))
    ensures p.defaultValue.None? && p.optional ==> ParseUsage(ParameterToString(p)) == Some(Optional(p.name))
    ensures p.defaultValue.None? && !p.optional && p.parameterType == Text ==>
      ParseUsage(ParameterToString(p)) == Some(Bare(p.name))
    ensures p.defaultValue.None? && !p.optional && p.parameterType != Text ==>
      ParseUsage(ParameterToString(p)) == Some(Required(p.name))
  {
    if p.defaultValue.Some? {
      DefaultedRoundTrip(p.name, LiteralToString(p.defaultValue.value));
    } else if p.optional {
      var s := "[" + p.name + "]?";
      assert s[1..|s| - 2] == p.name;
    } else if p.parameterType == Text {
      assert p.name[0] != '[';
    } else {
      BracketedRoundTrip(p.name);
    }
  }

  /**
   * The help text of a key: a required text key is its bare name, an optional player key
   * defaults to the invoking player (`you`), other keys are bracketed.
   */
  lemma KeyUsage(k: CommandKey)
    requires IsPlainName(k.name) && |k.name| > 0
    ensures k.keyType == Text && !k.optional ==> ParseUsage(KeyToString(k)) == Some(Bare(k.name))
    ensures k.keyType == Player && k.optional ==> ParseUsage(KeyToString(k)) == Some(Defaulted(k.name, "you"))
    ensures k.keyType != Player && k.optional ==> ParseUsage(KeyToString(k)) == Some(Optional(k.name))
    ensures k.keyType != Text && !k.optional ==> ParseUsage(KeyToString(k)) == Some(Required(k.name))
  {
    if k.keyType == Text && !k.optional {
      assert k.name[0] != '[';
    } else if k.keyType == Player && k.optional {
      assert KeyToString(k) == "[" + k.name + "=" + "you" + "]";
      DefaultedRoundTrip(k.name, "you");
    } else if k.optional {
      var s := "[" + k.name + "]?";
      assert s[1..|s| - 2] == k.name;
    } else {
      BracketedRoundTrip(k.name);
    }
  }

  /**
   * Two parameters with plain names render alike only when they agree on name, on whether
   * a default is present (and its text) and, without a default, on optionality and, for a
   * required one, on whether it is text.
   */
  lemma ParameterToStringInjective(p: CommandParameter, q: CommandParameter)
    requires IsPlainName(p.name) && IsPlainName(q.name) && |p.name| > 0 && |q.name| > 0
    requires ParameterToString(p) == ParameterToString(q)
    ensures p.name == q.name
    ensures p.defaultValue.Some? <==> q.defaultValue.Some?
    ensures p.defaultValue.Some? ==>
      LiteralToString(p.defaultValue.value) == LiteralToString(q.defaultValue.value)
    ensures p.defaultValue.None? ==> p.optional == q.optional
    ensures p.defaultValue.None? && !p.optional ==> (p.parameterType == Text <==> q.parameterType == Text)
  {
    ParameterUsage(p);
    ParameterUsage(q);
  }

  /** The renderings the command test expects, for both descriptors. */
  lemma RenderingExamples()
    ensures KeyToString(CommandKey("foo", Text, false, Some(TextLiteral("foo")))) == "foo"
    ensures KeyToString(CommandKey("foo", Number, false, None)) == "[foo]"
    ensures KeyToString(CommandKey("foo", Player, true, None)) == "[foo=you]"
    ensures ParameterToString(CommandParameter("foo", Number, false, None)) == "[foo]"
    ensures ParameterToString(CommandParameter("foo", Number, false, Some(NumberLiteral(5)))) == "[foo=5]"
    ensures ParameterToString(CommandParameter("foo", Number, true, None)) == "[foo]?"
  {
    assert NatToString(5) == "5";
  }
}

=== FILE: decoration_npc.dfy ===
/**
 * A non-player character loaded as a decoration: enabling it creates the NPC, a connected NPC
 * gets the vehicle its configuration describes, and a disconnected NPC is recreated after a
 * delay unless it was disabled (or disabled and enabled again) in the meantime.
 *
 * The entity factory records the NPCs and vehicles it was asked to create. Each enable issues a
 * token never issued before; the deferred reconnect is the separate call `FireReconnect`, made
 * with the token captured at disconnection.
 */
module Decorations {
  import opened Wrappers

  /** A configured value, of whatever type the configuration file gave it. */
  datatype ConfigValue = NumberValue(n: int) | TextValue(s: string) | BoolValue(b: bool)

  datatype VehicleSettings = VehicleSettings(
    modelId: Option<ConfigValue>,
    primaryColor: Option<int>,
    secondaryColor: Option<int>)

  datatype Appearance = Appearance(vehicle: Option<VehicleSettings>)

  datatype Position = Position(x: int, y: int, z: int)

  datatype NpcInformation = NpcInformation(
    name: string,
    script: string,
    position: Position,
    rotation: int,
    appearance: Option<Appearance>)

  datatype NpcRequest = NpcRequest(name: string, pawnScript: string)

  datatype VehicleRequest = VehicleRequest(
    modelId: int,
    position: Position,
    rotation: int,
    primaryColor: int,
    secondaryColor: int,
    numberPlate: string)

  /** `createVehicle` throws on a vehicle configuration without a numeric model. */
  datatype ConfigurationError = InvalidVehicleModel(npcName: string)

  /**
   * The vehicle the configuration asks for: none without an appearance or a vehicle in it, an
   * error when the model is missing or not a number. `randomPrimary` and `randomSecondary` are
   * the random colours used where the configuration gives none.
   */
  function VehicleRequestFor(information: NpcInformation, randomPrimary: int, randomSecondary: int)
    : (r: Result<Option<VehicleRequest>, ConfigurationError>)
    ensures information.appearance.None? || information.appearance.value.vehicle.None? ==> r == Ok(None)
    ensures r.Err? <==> (information.appearance.Some? && information.appearance.value.vehicle.Some? &&
      !(information.appearance.value.vehicle.value.modelId.Some? &&
        information.appearance.value.vehicle.value.modelId.value.NumberValue?))
    ensures r.Ok? && r.value.Some? ==>
      var settings := information.appearance.value.vehicle.value;
      r.value.value.modelId == settings.modelId.value.n &&
      r.value.value.numberPlate == information.name &&
      r.value.value.position == information.position &&
      r.value.value.rotation == information.rotation &&
      r.value.value.primaryColor == (if settings.primaryColor.Some? then settings.primaryColor.value else randomPrimary) &&
      r.value.value.secondaryColor == (if settings.secondaryColor.Some? then settings.secondaryColor.value else randomSecondary)
  {
    if information.appearance.None? then Ok(None)
    else if information.appearance.value.vehicle.None? then Ok(None)
    else
      var settings := information.appearance.value.vehicle.value;
      if settings.modelId.None? || !settings.modelId.value.NumberValue? then
        Err(InvalidVehicleModel(information.name))
      else
        Ok(Some(VehicleRequest(
          settings.modelId.value.n,
          information.position,
          information.rotation,
          if settings.primaryColor.Some? then settings.primaryColor.value else randomPrimary,
          if settings.secondaryColor.Some? then settings.secondaryColor.value else randomSecondary,
          information.name)))
  }

  /** The set of entities an enabled NPC creates its NPC and vehicle from. */
  class EntityFactory {
    var npcs: seq<NpcRequest>
    var vehicles: seq<VehicleRequest>
    var disposedVehicles: set<nat>

    constructor ()
      ensures npcs == [] && vehicles == [] && disposedVehicles == {}
    {
      npcs := [];
      vehicles := [];
      disposedVehicles := {};
    }

    method CreateNpc(request: NpcRequest) returns (npc: nat)
      modifies this`npcs
      ensures npcs == old(npcs) + [request] && npc == |old(npcs)|
    {
      npc := |npcs|;
      npcs := npcs + [request];
    }

    method CreateVehicle(request: VehicleRequest) returns (vehicle: nat)
      modifies this`vehicles
      ensures vehicles == old(vehicles) + [request] && vehicle == |old(vehicles)|
    {
      vehicle := |vehicles|;
      vehicles := vehicles + [request];
    }

    method DisposeVehicle(vehicle: nat)
      modifies this`disposedVehicles
      ensures disposedVehicles == old(disposedVehicles) + {vehicle}
    {
      disposedVehicles := disposedVehicles + {vehicle};
    }
  }

  /** The in-world player behind an NPC. */
  class NpcPlayer {
    var virtualWorld: int
    var vehicle: Option<nat>

    constructor (virtualWorld: int)
      ensures this.virtualWorld == virtualWorld && vehicle == None
    {
      this.virtualWorld := virtualWorld;
      vehicle := None;
    }
  }

  class DecorationNpc {
    const information: NpcInformation

    var entities: EntityFactory?
    var npc: Option<nat>
    var token: Option<nat>
    var vehicle: Option<nat>
    /** How many tokens were issued so far; the next one is this number. */
    var tokensIssued: nat

    /** Every token in use was issued, and an enabled NPC holds one. */
    ghost predicate Valid()
      reads this
    {
      (token.Some? ==> token.value < tokensIssued) &&
      (entities != null ==> token.Some?)
    }

    /** The entities this NPC is enabled with, as a frame. */
    ghost function EnabledFactory(): set<EntityFactory>
      reads this
    {
      if entities == null then {} else {entities}
    }

    function NpcRequestFor(): (request: NpcRequest) {
      NpcRequest(information.name, information.script)
    }

    constructor (information: NpcInformation)
      ensures Valid() && this.information == information
      ensures entities == null && npc == None && token == None && vehicle == None
    {
      this.information := information;
      entities := null;
      npc := None;
      token := None;
      vehicle := None;
      tokensIssued := 0;
    }

    /** Creates the NPC off `factory`; an NPC that is enabled already cannot be enabled again. */
    method Enable(factory: EntityFactory) returns (result: Result<(), string>)
      requires Valid()
      modifies this, factory`npcs
      ensures Valid()
      ensures old(entities) != null ==> (result.Err? &&
        entities == old(entities) && npc == old(npc) && token == old(token) &&
        vehicle == old(vehicle) && tokensIssued == old(tokensIssued) && factory.npcs == old(factory.npcs))
      ensures old(entities) == null ==> (result.Ok? &&
        entities == factory && factory.npcs == old(factory.npcs) + [NpcRequestFor()] &&
        npc == Some(|old(factory.npcs)|) && token == Some(old(tokensIssued)) &&
        tokensIssued == old(tokensIssued) + 1 && vehicle == old(vehicle))
    {
      if entities != null {
        return Err("This NPC has already been enabled, cannot double enable them!");
      }
      entities := factory;
      var created := factory.CreateNpc(NpcRequestFor());
      npc := Some(created);
      token := Some(tokensIssued);
      tokensIssued := tokensIssued + 1;
      result := Ok(());
    }

    /** Creates the configured vehicle, if any, off the entities this NPC was enabled with. */
    method CreateVehicle(randomPrimary: int, randomSecondary: int)
      returns (result: Result<Option<nat>, ConfigurationError>)
      requires entities != null
      modifies entities`vehicles
      ensures var expected := VehicleRequestFor(information, randomPrimary, randomSecondary);
        match expected
        case Err(e) => result == Err(e) && entities.vehicles == old(entities.vehicles)
        case Ok(None) => result == Ok(None) && entities.vehicles == old(entities.vehicles)
        case Ok(Some(request)) =>
          result == Ok(Some(|old(entities.vehicles)|)) && entities.vehicles == old(entities.vehicles) + [request]
    {
      var expected := VehicleRequestFor(information, randomPrimary, randomSecondary);
      match expected
      case Err(e) =>
        result := Err(e);
      case Ok(None) =>
        result := Ok(None);
      case Ok(Some(request)) =>
        var created := entities.CreateVehicle(request);
        result := Ok(Some(created));
    }

    /** The NPC connected: it gets its vehicle, unless it was disabled meanwhile. */
    method OnNpcConnected(randomPrimary: int, randomSecondary: int) returns (result: Result<(), ConfigurationError>)
      requires Valid()
      modifies this`vehicle, EnabledFactory()`vehicles
      ensures Valid()
      ensures entities == null ==> result.Ok? && vehicle == old(vehicle)
      ensures entities != null ==>
        match VehicleRequestFor(information, randomPrimary, randomSecondary)
        case Err(e) => result == Err(e) && vehicle == old(vehicle) && entities.vehicles == old(entities.vehicles)
        case Ok(None) => result.Ok? && vehicle == None && entities.vehicles == old(entities.vehicles)
        case Ok(Some(request)) =>
          result.Ok? && vehicle == Some(|old(entities.vehicles)|) &&
          entities.vehicles == old(entities.vehicles) + [request]
    {
      if entities == null {
        return Ok(());
      }
      var created := CreateVehicle(randomPrimary, randomSecondary);
      match created
      case Err(e) =>
        result := Err(e);
      case Ok(v) =>
        vehicle := v;
        result := Ok(());
    }

    /** The NPC spawned: into the main world, and into its vehicle when it has one. */
    method OnNpcSpawn(player: NpcPlayer)
      modifies player
      ensures player.virtualWorld == 0
      ensures player.vehicle == if vehicle.Some? then vehicle else old(player.vehicle)
    {
      player.virtualWorld := 0;
      if vehicle.Some? {
        player.vehicle := vehicle;
      }
    }

    /**
     * The NPC disconnected. While enabled, its vehicle is disposed of and a reconnect is
     * scheduled with the current token, which is returned; while disabled nothing happens.
     */
    method OnNpcDisconnected() returns (pending: Option<nat>)
      requires Valid()
      modifies this`vehicle, EnabledFactory()`disposedVehicles
      ensures Valid()
      ensures old(entities) == null ==> pending == None && vehicle == old(vehicle)
      ensures old(entities) != null ==> (pending == old(token) && pending.Some? && vehicle == None &&
        entities.disposedVehicles ==
          old(entities.disposedVehicles) + (if old(vehicle).Some? then {old(vehicle).value} else {}))
    {
      if entities == null {
        return None;
      }
      pending := token;
      if vehicle.Some? {
        entities.DisposeVehicle(vehicle.value);
        vehicle := None;
      }
    }

    /**
     * The delayed reconnect, carrying the token captured at disconnection: the NPC is created
     * again only if it is still enabled with that very token.
     */
    method FireReconnect(captured: Option<nat>) returns (reconnected: bool)
      requires Valid()
      modifies this`npc, EnabledFactory()`npcs
      ensures Valid()
      ensures reconnected <==> entities != null && token == captured
      ensures reconnected ==> (entities.npcs == old(entities.npcs) + [NpcRequestFor()] &&
        npc == Some(|old(entities.npcs)|))
      ensures !reconnected ==> npc == old(npc) && (entities != null ==> entities.npcs == old(entities.npcs))
    {
      if entities == null || token != captured {
        return false;
      }
      var created := entities.CreateNpc(NpcRequestFor());
      npc := Some(created);
      reconnected := true;
    }

    /** Disables the NPC; what it created is cleaned up by the entity set itself. */
    method Disable()
      requires Valid()
      modifies this`entities, this`npc, this`vehicle
      ensures Valid()
      ensures entities == null && npc == None && vehicle == None
    {
      entities := null;
      npc := None;
      vehicle := None;
    }
  }

  /**
   * Disconnection, then a disable and a re-enable before the delay runs out: the stale
   * reconnect creates nothing, so only the two enables created an NPC.
   */
  method StaleReconnectScenario(information: NpcInformation) returns (reconnected: bool, created: nat)
    ensures !reconnected && created == 2
  {
    var factory := new EntityFactory();
    var decoration := new DecorationNpc(information);
    var enabled := decoration.Enable(factory);
    var pending := decoration.OnNpcDisconnected();
    decoration.Disable();
    enabled := decoration.Enable(factory);
    reconnected := decoration.FireReconnect(pending);
    created := |factory.npcs|;
  }

  /** Disconnection with nothing in between: the reconnect recreates the NPC. */
  method ReconnectScenario(information: NpcInformation) returns (reconnected: bool, created: nat)
    ensures reconnected && created == 2
  {
    var factory := new EntityFactory();
    var decoration := new DecorationNpc(information);
    var enabled := decoration.Enable(factory);
    var pending := decoration.OnNpcDisconnected();
    reconnected := decoration.FireReconnect(pending);
    created := |factory.npcs|;
  }

  /** Disconnection, then a disable: the reconnect does nothing. */
  method DisabledReconnectScenario(information: NpcInformation) returns (reconnected: bool, created: nat)
    ensures !reconnected && created == 1
  {
    var factory := new EntityFactory();
    var decoration := new DecorationNpc(information);
    var enabled := decoration.Enable(factory);
    var pending := decoration.OnNpcDisconnected();
    decoration.Disable();
    reconnected := decoration.FireReconnect(pending);
    created := |factory.npcs|;
  }

  /** Enabling twice fails; enabling again after a disable succeeds. */
  method DoubleEnableScenario(information: NpcInformation) returns (second: Result<(), string>, afterDisable: Result<(), string>)
    ensures second.Err? && afterDisable.Ok?
  {
    var factory := new EntityFactory();
    var decoration := new DecorationNpc(information);
    var _ := decoration.Enable(factory);
    second := decoration.Enable(factory);
    decoration.Disable();
    afterDisable := decoration.Enable(factory);
  }
}

=== FILE: radio_commands.dfy ===
/**
 * The `/radio` command: `/radio` toggles listening for an eligible player, `/radio options`
 * shows a menu in which the player picks their preferred channel or disables the radio.
 * Messages sent to the player are returned in the order they are sent; the menu and the
 * message box are returned as values instead of being displayed.
 */
module RadioCommandHandlers {
  import opened Wrappers
  import opened CommandExecution
  import opened Radio

  const kRadioCommandHandler: HandlerName := "RadioCommands.onRadioCommand"
  const kRadioOptionsHandler: HandlerName := "RadioCommands.onRadioOptionsCommand"
  const kDisableRadioLabel := "{DDDDDD}Disable the radio"

  datatype Message =
    | RadioFeatureDisabled
    | RadioCommandNotEligible
    | RadioCommandOptionsAdvertisement
    | RadioCommandToggleListening(operation: string, channelName: string)

  /** `channel.name` was read off a channel that is `null`: the handler throws. */
  datatype HandlerError = NoCurrentChannel

  datatype MenuAction = SelectChannel(channel: Channel) | DisableRadio
  datatype MenuItem = MenuItem(name: string, selected: string, action: MenuAction)
  datatype Menu = Menu(title: string, columns: seq<string>, items: seq<MenuItem>)

  datatype Notice = PreferredChannelChanged(channelName: string) | PreferredDisabled
  datatype MessageBox = MessageBox(title: string, message: Notice)

  // ---------------------------------------------------------------------------------------------
  // Registration and routing.

  /** What the constructor registers: `/radio` with the sub-command `options`. */
  function RadioCommandDescription(): (d: CommandDescription)
    ensures d.name == "radio" && |d.subCommands| == 1 && d.subCommands[0].name == "options"
  {
    CommandDescription("radio", "/", "", [],
      [CommandDescription("options", "/", "", [], [], kRadioOptionsHandler)],
      kRadioCommandHandler)
  }

  /**
   * `/radio options ...` reaches the options handler with what follows `options`; any other
   * input, including none, reaches the toggle handler with all of it.
   */
  lemma RadioRouting(text: string)
    ensures var (token, rest) := SplitFirstToken(text);
      var target := Resolve(RadioCommandDescription(), text);
      if token == "options" then
        target.command.handler == kRadioOptionsHandler && target.arguments == rest
      else
        target.command.handler == kRadioCommandHandler && target.arguments == text
  {
    var (token, rest) := SplitFirstToken(text);
    var d := RadioCommandDescription();
    if token == "options" {
      assert FindSubCommand(d.subCommands, token) == Some(0);
      var (t2, r2) := SplitFirstToken(rest);
      assert FindSubCommand(d.subCommands[0].subCommands, t2) == None;
    } else {
      assert FindSubCommand(d.subCommands, token) == None;
    }
  }

  /** The two inputs of the scenario below: `options` and nothing at all. */
  lemma RadioRoutingExamples()
    ensures Resolve(RadioCommandDescription(), "options").command.handler == kRadioOptionsHandler
    ensures Resolve(RadioCommandDescription(), "").command.handler == kRadioCommandHandler
  {
    assert ' ' !in "options";
    assert SplitFirstToken("options") == ("options", "");
    RadioRouting("options");
    assert SplitFirstToken("") == ("", "");
    assert "" != "options";
    RadioRouting("");
  }

  // ---------------------------------------------------------------------------------------------
  // The options menu.

  function ChannelRow(channel: Channel, preferred: Option<Channel>): (row: MenuItem) {
    MenuItem(channel.name, if preferred == Some(channel) then "X" else "", SelectChannel(channel))
  }

  function DisableRow(preferred: Option<Channel>): (row: MenuItem) {
    MenuItem(kDisableRadioLabel, if preferred.None? then "X" else "", DisableRadio)
  }

  /** One row per channel in selection order, then the row that disables the radio. */
  function OptionsMenuItems(channels: seq<Channel>, preferred: Option<Channel>): (items: seq<MenuItem>)
    ensures |items| == |channels| + 1
    ensures forall i :: 0 <= i < |channels| ==> items[i].action == SelectChannel(channels[i])
    ensures items[|channels|].action == DisableRadio
  {
    seq(|channels|, i requires 0 <= i < |channels| => ChannelRow(channels[i], preferred)) + [DisableRow(preferred)]
  }

  /** The rows that carry the selection mark. */
  function SelectedRows(items: seq<MenuItem>): (rows: set<nat>) {
    set i: nat | i < |items| && items[i].selected == "X"
  }

  predicate Distinct(channels: seq<Channel>) {
    forall i, j :: 0 <= i < j < |channels| ==> channels[i] != channels[j]
  }

  /**
   * Exactly one row is marked: the preferred channel's, or the disable row when the player has
   * no preferred channel. A preference for a channel no longer configured marks nothing.
   */
  lemma SelectionMark(channels: seq<Channel>, preferred: Option<Channel>)
    requires Distinct(channels)
    ensures preferred.None? ==> SelectedRows(OptionsMenuItems(channels, preferred)) == {|channels|}
    ensures preferred.Some? && preferred.value in channels ==>
      exists k :: 0 <= k < |channels| && channels[k] == preferred.value &&
        SelectedRows(OptionsMenuItems(channels, preferred)) == {k}
    ensures preferred.Some? && preferred.value !in channels ==>
      SelectedRows(OptionsMenuItems(channels, preferred)) == {}
  {
    var items := OptionsMenuItems(channels, preferred);
    assert forall i :: 0 <= i < |channels| ==> items[i] == ChannelRow(channels[i], preferred);
    if preferred.None? {
      assert SelectedRows(items) == {|channels|};
    } else if preferred.value in channels {
      var k :| 0 <= k < |channels| && channels[k] == preferred.value;
      forall i: nat | i < |items| && items[i].selected == "X" ensures i == k {
        if i < |channels| {
          assert channels[i] == preferred.value;
        }
      }
      assert items[k].selected == "X";
      assert SelectedRows(items) == {k};
    } else {
      forall i: nat | i < |items| ensures items[i].selected != "X" {
        if i < |channels| { assert channels[i] != preferred.value; }
      }
      assert SelectedRows(items) == {};
    }
  }

  // ---------------------------------------------------------------------------------------------
  // The `/radio` toggle, as a function of the state it reads.

  /**
   * The messages `/radio` sends (or the failure it throws) and the channel the player listens to
   * afterwards, given whether the feature is on, whether the player is eligible, the channel
   * they listen to now and their preferred channel.
   */
  function RadioCommandOutcome(enabled: bool, eligible: bool, current: Option<Channel>, preferred: Option<Channel>)
    : (outcome: (Result<seq<Message>, HandlerError>, Option<Channel>))
  {
    if !enabled then (Ok([RadioFeatureDisabled]), current)
    else if !eligible then (Ok([RadioCommandNotEligible, RadioCommandOptionsAdvertisement]), current)
    else if current.Some? then
      (Ok([RadioCommandToggleListening("stopped", current.value.name), RadioCommandOptionsAdvertisement]), None)
    else if preferred.Some? then
      (Ok([RadioCommandToggleListening("started", preferred.value.name), RadioCommandOptionsAdvertisement]), preferred)
    else (Err(NoCurrentChannel), None)
  }

  /** Disabled or not eligible: one refusal (plus the advertisement when not eligible), no change. */
  lemma RadioCommandGuards(enabled: bool, eligible: bool, current: Option<Channel>, preferred: Option<Channel>)
    requires !enabled || !eligible
    ensures RadioCommandOutcome(enabled, eligible, current, preferred).1 == current
    ensures !enabled ==> RadioCommandOutcome(enabled, eligible, current, preferred).0 == Ok([RadioFeatureDisabled])
    ensures enabled ==>
      RadioCommandOutcome(enabled, eligible, current, preferred).0 ==
        Ok([RadioCommandNotEligible, RadioCommandOptionsAdvertisement])
  {
  }

  /**
   * Otherwise listening flips. The reported word says which way, the reported channel is the
   * one stopped or the one started, and the advertisement comes last.
   */
  lemma RadioCommandToggles(current: Option<Channel>, preferred: Option<Channel>)
    requires current.Some? || preferred.Some?
    ensures var (result, after) := RadioCommandOutcome(true, true, current, preferred);
      result.Ok? && |result.value| == 2 &&
      result.value[1] == RadioCommandOptionsAdvertisement &&
      (after.Some? <==> current.None?) &&
      result.value[0] == RadioCommandToggleListening(
        if current.Some? then "stopped" else "started",
        if current.Some? then current.value.name else after.value.name)
  {
  }

  class RadioCommands {
    const manager: RadioManager
    const commandManager: CommandManager

    constructor (manager: RadioManager, commandManager: CommandManager)
      modifies commandManager
      ensures this.manager == manager && this.commandManager == commandManager
      ensures commandManager.commands == old(commandManager.commands)["radio" := RadioCommandDescription()]
    {
      this.manager := manager;
      this.commandManager := commandManager;
      new;
      var radio := commandManager.BuildCommand("radio");
      var options := radio.Sub("options");
      var _ := options.Build(kRadioOptionsHandler);
      assert radio.subCommands == RadioCommandDescription().subCommands;
      var _ := radio.Build(kRadioCommandHandler);
    }

    /** `/radio options`: the menu of channels, or a refusal when the feature is disabled. */
    method OnRadioOptionsCommand(player: Player) returns (messages: seq<Message>, menu: Option<Menu>)
      ensures !manager.IsEnabled() ==> messages == [RadioFeatureDisabled] && menu == None
      ensures manager.IsEnabled() ==> messages == [] && menu == Some(Menu(
        "In-game radio options", ["Channel", "Selected"],
        OptionsMenuItems(manager.selection.channels, manager.GetPreferredChannelForPlayer(player))))
    {
      if !manager.IsEnabled() {
        return [RadioFeatureDisabled], None;
      }
      var preferredChannel := manager.GetPreferredChannelForPlayer(player);
      var channels := manager.selection.channels;
      var items: seq<MenuItem> := [];
      for i := 0 to |channels|
        invariant |items| == i
        invariant forall j :: 0 <= j < i ==> items[j] == ChannelRow(channels[j], preferredChannel)
      {
        var selected := if Some(channels[i]) == preferredChannel then "X" else "";
        items := items + [MenuItem(channels[i].name, selected, SelectChannel(channels[i]))];
      }
      var disabled := if preferredChannel.None? then "X" else "";
      items := items + [MenuItem(kDisableRadioLabel, disabled, DisableRadio)];
      assert forall j :: 0 <= j < |items| ==> items[j] == OptionsMenuItems(channels, preferredChannel)[j];
      assert items == OptionsMenuItems(channels, preferredChannel);
      messages := [];
      menu := Some(Menu("In-game radio options", ["Channel", "Selected"], items));
    }

    /** Choosing a row of the options menu: a channel becomes the preference, or none does. */
    method OnMenuItemChosen(player: Player, item: MenuItem) returns (box: MessageBox)
      modifies manager`preferred
      ensures item.action.SelectChannel? ==>
        manager.preferred == old(manager.preferred)[player := Some(item.action.channel)] &&
        box == MessageBox("Radio preferences updated!", PreferredChannelChanged(item.action.channel.name))
      ensures item.action.DisableRadio? ==>
        manager.preferred == old(manager.preferred)[player := None] &&
        box == MessageBox("Radio preferences updated!", PreferredDisabled)
    {
      match item.action
      case SelectChannel(channel) =>
        manager.SetPreferredChannelForPlayer(player, Some(channel));
        box := MessageBox("Radio preferences updated!", PreferredChannelChanged(channel.name));
      case DisableRadio =>
        manager.SetPreferredChannelForPlayer(player, None);
        box := MessageBox("Radio preferences updated!", PreferredDisabled);
    }

    /** `/radio`: toggles listening for an eligible player while the feature is enabled. */
    method OnRadioCommand(player: Player) returns (result: Result<seq<Message>, HandlerError>)
      requires manager.Synced(player)
      modifies manager`listening, player`streamUrl
      ensures manager.Synced(player)
      ensures (result, manager.GetCurrentChannelForPlayer(player)) == RadioCommandOutcome(
        old(manager.IsEnabled()), old(manager.IsEligible(player)),
        old(manager.GetCurrentChannelForPlayer(player)), old(manager.GetPreferredChannelForPlayer(player)))
      ensures manager.listening - {player} == old(manager.listening) - {player}
    {
      if !manager.IsEnabled() {
        return Ok([RadioFeatureDisabled]);
      }
      if !manager.IsEligible(player) {
        return Ok([RadioCommandNotEligible, RadioCommandOptionsAdvertisement]);
      }
      var isListening := manager.IsListening(player);
      var operation := if isListening then "stopped" else "started";
      var channel: Option<Channel>;
      if isListening {
        channel := manager.GetCurrentChannelForPlayer(player);
        manager.StopRadio(player);
      } else {
        manager.StartRadio(player);
        channel := manager.GetCurrentChannelForPlayer(player);
      }
      if channel.None? {
        return Err(NoCurrentChannel);
      }
      result := Ok([RadioCommandToggleListening(operation, channel.value.name), RadioCommandOptionsAdvertisement]);
    }

    method Dispose()
      modifies commandManager
      ensures commandManager.commands == old(commandManager.commands) - {"radio"}
    {
      commandManager.RemoveCommand("radio");
    }
  }

  /**
   * `/radio options` and `/radio` typed into an executor that grants permission reach the
   * options handler and the toggle handler respectively.
   */
  method RadioRoutingScenario() returns (options: ExecutionResult, toggle: ExecutionResult)
    ensures options == Handled(kRadioOptionsHandler) && toggle == Handled(kRadioCommandHandler)
  {
    var commandManager := new CommandManager();
    var manager, _ := NewRadio();
    var commands := new RadioCommands(manager, commandManager);
    var permission := new PermissionDelegate(true);
    var executor := new CommandExecutor(permission);
    var radio := commandManager.commands["radio"];
    assert radio == RadioCommandDescription();
    RadioRoutingExamples();
    options := executor.ExecuteCommand(0, radio, "options");
    toggle := executor.ExecuteCommand(0, radio, "");
  }
}

=== FILE: radio_manager.dfy ===
/**
 * The in-game radio: which players are listening to which channel, the stream each player's
 * client is playing, and when a player may listen at all (the `radio/enabled` and
 * `radio/restricted_to_vehicles` settings and whether the player sits in a vehicle).
 */
module Radio {
  import opened Wrappers

  datatype Channel = Channel(name: string, stream: string)

  /** The configured channels; the first one is the default. */
  datatype ChannelSelection = ChannelSelection(channels: seq<Channel>) {
    function DefaultChannel(): (r: Option<Channel>)
      ensures r.Some? <==> |channels| > 0
      ensures r.Some? ==> r.value == channels[0] && r.value in channels
    {
      if |channels| > 0 then Some(channels[0]) else None
    }
  }

  /** The two radio settings; both start out true. */
  class Settings {
    var radioEnabled: bool
    var restrictedToVehicles: bool

    constructor ()
      ensures radioEnabled && restrictedToVehicles
    {
      radioEnabled := true;
      restrictedToVehicles := true;
    }

    method SetRadioEnabled(value: bool)
      modifies this
      ensures radioEnabled == value && restrictedToVehicles == old(restrictedToVehicles)
    {
      radioEnabled := value;
    }

    method SetRestrictedToVehicles(value: bool)
      modifies this
      ensures restrictedToVehicles == value && radioEnabled == old(radioEnabled)
    {
      restrictedToVehicles := value;
    }
  }

  datatype VehicleSeat = VehicleSeat(vehicle: nat, seat: nat)

  /** The parts of a player the radio reads and writes. */
  class Player {
    var vehicle: Option<VehicleSeat>
    var streamUrl: Option<string>

    constructor ()
      ensures vehicle == None && streamUrl == None
    {
      vehicle := None;
      streamUrl := None;
    }

    method EnterVehicle(vehicle: nat, seat: nat)
      modifies this`vehicle
      ensures this.vehicle == Some(VehicleSeat(vehicle, seat))
    {
      this.vehicle := Some(VehicleSeat(vehicle, seat));
    }

    method LeaveVehicle()
      modifies this`vehicle
      ensures vehicle == None
    {
      vehicle := None;
    }
  }

  class RadioManager {
    const selection: ChannelSelection
    const settings: Settings
    /** The channel each listening player is tuned to. */
    var listening: map<Player, Channel>
    /** Explicit preferences; `None` means the player disabled the radio. */
    var preferred: map<Player, Option<Channel>>

    /** The player's client plays a stream exactly while the manager has them listening. */
    ghost predicate Synced(player: Player)
      reads this, player
    {
      (player in listening <==> player.streamUrl.Some?) &&
      (player in listening ==> player.streamUrl == Some(listening[player].stream))
    }

    constructor (selection: ChannelSelection, settings: Settings)
      ensures this.selection == selection && this.settings == settings
      ensures listening == map[] && preferred == map[]
    {
      this.selection := selection;
      this.settings := settings;
      listening := map[];
      preferred := map[];
    }

    /** The feature is on exactly while the `radio/enabled` setting is. */
    predicate IsEnabled(): (enabled: bool)
      reads this, settings
      ensures enabled <==> settings.radioEnabled
    {
      settings.radioEnabled
    }

    /** A seated player may always listen; one on foot only once the vehicle restriction is off. */
    predicate IsEligible(player: Player): (eligible: bool)
      reads this, settings, player
      ensures player.vehicle.Some? ==> eligible
      ensures player.vehicle.None? ==> (eligible <==> !settings.restrictedToVehicles)
    {
      !settings.restrictedToVehicles || player.vehicle.Some?
    }

    /** A player listens exactly when they have a current channel. */
    predicate IsListening(player: Player): (isListening: bool)
      reads this
      ensures isListening <==> GetCurrentChannelForPlayer(player).Some?
    {
      player in listening
    }

    function GetCurrentChannelForPlayer(player: Player): (r: Option<Channel>)
      reads this
      ensures r.Some? <==> player in listening
      ensures r.Some? ==> r.value == listening[player]
    {
      if player in listening then Some(listening[player]) else None
    }

    /** The player's own choice when they made one, the default channel otherwise. */
    function GetPreferredChannelForPlayer(player: Player): (r: Option<Channel>)
      reads this
      ensures player !in preferred ==> r == selection.DefaultChannel()
    {
      if player in preferred then preferred[player] else selection.DefaultChannel()
    }

    method SetPreferredChannelForPlayer(player: Player, channel: Option<Channel>)
      modifies this`preferred
      ensures preferred == old(preferred)[player := channel]
      ensures GetPreferredChannelForPlayer(player) == channel
    {
      preferred := preferred[player := channel];
    }

    /**
     * Tunes the player to their preferred channel. A player who disabled the radio (or a
     * configuration without channels) is left as they were.
     */
    method StartRadio(player: Player)
      requires Synced(player)
      modifies this`listening, player`streamUrl
      ensures Synced(player)
      ensures var channel := GetPreferredChannelForPlayer(player);
        if channel.Some? then
          listening == old(listening)[player := channel.value] &&
          player.streamUrl == Some(channel.value.stream)
        else
          listening == old(listening) && player.streamUrl == old(player.streamUrl)
    {
      var channel := GetPreferredChannelForPlayer(player);
      if channel.Some? {
        listening := listening[player := channel.value];
        player.streamUrl := Some(channel.value.stream);
      }
    }

    method StopRadio(player: Player)
      modifies this`listening, player`streamUrl
      ensures Synced(player)
      ensures listening == old(listening) - {player} && player.streamUrl == None
    {
      listening := listening - {player};
      player.streamUrl := None;
    }

    /** Reacts to the player having entered a vehicle: starts the radio when it may play. */
    method OnPlayerEnterVehicle(player: Player)
      requires Synced(player)
      modifies this`listening, player`streamUrl
      ensures Synced(player)
      ensures IsEnabled() && IsEligible(player) && GetPreferredChannelForPlayer(player).Some? ==>
        listening == old(listening)[player := GetPreferredChannelForPlayer(player).value] &&
        player.streamUrl == Some(GetPreferredChannelForPlayer(player).value.stream)
      ensures !(IsEnabled() && IsEligible(player) && GetPreferredChannelForPlayer(player).Some?) ==>
        listening == old(listening) && player.streamUrl == old(player.streamUrl)
    {
      if IsEnabled() && IsEligible(player) {
        StartRadio(player);
      }
    }

    /** Reacts to the player having left their vehicle: their radio stops. */
    method OnPlayerLeaveVehicle(player: Player)
      requires Synced(player)
      modifies this`listening, player`streamUrl
      ensures Synced(player)
      ensures listening == old(listening) - {player} && player.streamUrl == None
    {
      if IsListening(player) {
        StopRadio(player);
      }
    }
  }

  /** A player getting into a vehicle, as the manager observes it. */
  method PlayerEntersVehicle(manager: RadioManager, player: Player, vehicle: nat, seat: nat)
    requires manager.Synced(player)
    modifies manager`listening, player
    ensures manager.Synced(player) && player.vehicle == Some(VehicleSeat(vehicle, seat))
    ensures manager.IsEligible(player)
    ensures manager.IsEnabled() && manager.GetPreferredChannelForPlayer(player).Some? ==>
      manager.listening == old(manager.listening)[player := manager.GetPreferredChannelForPlayer(player).value] &&
      player.streamUrl == Some(manager.GetPreferredChannelForPlayer(player).value.stream)
    ensures !(manager.IsEnabled() && manager.GetPreferredChannelForPlayer(player).Some?) ==>
      manager.listening == old(manager.listening) && player.streamUrl == old(player.streamUrl)
  {
    player.EnterVehicle(vehicle, seat);
    manager.OnPlayerEnterVehicle(player);
  }

  /** A player getting out of their vehicle, as the manager observes it. */
  method PlayerLeavesVehicle(manager: RadioManager, player: Player)
    requires manager.Synced(player)
    modifies manager`listening, player
    ensures manager.Synced(player) && player.vehicle == None
    ensures manager.listening == old(manager.listening) - {player} && player.streamUrl == None
    ensures manager.settings.restrictedToVehicles ==> !manager.IsEligible(player)
  {
    player.LeaveVehicle();
    manager.OnPlayerLeaveVehicle(player);
  }

  // ---------------------------------------------------------------------------------------------
  // The manager test, one scenario per case, each on a one-channel configuration.

  const kLvpRadio := Channel("LVP Radio", "https://play.sa-mp.nl/stream.pls")

  method NewRadio() returns (manager: RadioManager, player: Player)
    ensures fresh(manager) && fresh(player) && fresh(manager.settings)
    ensures manager.selection.channels == [kLvpRadio]
    ensures manager.settings.radioEnabled && manager.settings.restrictedToVehicles
    ensures manager.listening == map[] && manager.preferred == map[]
    ensures player.vehicle == None && player.streamUrl == None
  {
    var settings := new Settings();
    manager := new RadioManager(ChannelSelection([kLvpRadio]), settings);
    player := new Player();
  }

  /** `isEnabled()` follows the `radio/enabled` setting. */
  method EnabledScenario() returns (before: bool, after: bool)
    ensures before && !after
  {
    var manager, _ := NewRadio();
    before := manager.IsEnabled();
    manager.settings.SetRadioEnabled(false);
    after := manager.IsEnabled();
  }

  /** Starting plays the default channel's stream; stopping clears it again. */
  method StartStopScenario()
    returns (initially: (bool, Option<string>), started: (bool, Option<string>), stopped: (bool, Option<string>))
    ensures initially == (false, None)
    ensures started == (true, Some(kLvpRadio.stream))
    ensures stopped == (false, None)
  {
    var manager, player := NewRadio();
    initially := (manager.IsListening(player), player.streamUrl);
    manager.StartRadio(player);
    started := (manager.IsListening(player), player.streamUrl);
    manager.StopRadio(player);
    stopped := (manager.IsListening(player), player.streamUrl);
  }

  /** Entering a vehicle in any seat starts the radio; leaving it stops the radio. */
  method VehicleScenario()
    returns (enabled: bool, before: (bool, bool, Option<string>),
             asDriver: (bool, bool, Option<string>), afterDriver: (bool, bool, Option<string>),
             asPassenger: (bool, bool, Option<string>), afterPassenger: (bool, bool, Option<string>))
    ensures enabled && before == (false, false, None)
    ensures asDriver == (true, true, Some(kLvpRadio.stream)) && afterDriver == (false, false, None)
    ensures asPassenger == (true, true, Some(kLvpRadio.stream)) && afterPassenger == (false, false, None)
  {
    var manager, player := NewRadio();
    enabled := manager.IsEnabled();
    before := (manager.IsListening(player), manager.IsEligible(player), player.streamUrl);
    PlayerEntersVehicle(manager, player, 411, 0);
    asDriver := (manager.IsListening(player), manager.IsEligible(player), player.streamUrl);
    PlayerLeavesVehicle(manager, player);
    afterDriver := (manager.IsListening(player), manager.IsEligible(player), player.streamUrl);
    PlayerEntersVehicle(manager, player, 411, 1);
    asPassenger := (manager.IsListening(player), manager.IsEligible(player), player.streamUrl);
    PlayerLeavesVehicle(manager, player);
    afterPassenger := (manager.IsListening(player), manager.IsEligible(player), player.streamUrl);
  }

  /** With the feature disabled, entering a vehicle starts nothing. */
  method DisabledScenario() returns (listeningBefore: bool, listening: bool, streamUrl: Option<string>)
    ensures !listeningBefore
    ensures !listening && streamUrl == None
  {
    var manager, player := NewRadio();
    manager.settings.SetRadioEnabled(false);
    listeningBefore := manager.IsListening(player);
    PlayerEntersVehicle(manager, player, 411, 0);
    listening, streamUrl := manager.IsListening(player), player.streamUrl;
  }

  /** Lifting the vehicle restriction makes a player on foot eligible. */
  method RestrictionScenario() returns (restricted: bool, unrestricted: bool)
    ensures !restricted && unrestricted
  {
    var manager, player := NewRadio();
    restricted := manager.IsEligible(player);
    manager.settings.SetRestrictedToVehicles(false);
    unrestricted := manager.IsEligible(player);
  }
}

=== FILE: red_barrels.dfy ===
/**
 * Red barrels, a kind of collectable: each player gets their own barrel object for every barrel
 * they have not collected yet, and shooting one removes it. The object manager's count of live
 * objects moves by exactly the barrels created and removed.
 */
module Collectables {
  import opened Wrappers

  type PlayerId = nat

  /** The live objects of the server, each identified by an id that is never reused. */
  class ObjectManager {
    var objects: set<nat>
    var nextId: nat

    ghost predicate Valid()
      reads this
    {
      forall id :: id in objects ==> id < nextId
    }

    constructor (existing: nat)
      ensures Valid() && Count() == existing
    {
      objects := Range(existing);
      nextId := existing;
      RangeSize(existing);
    }

    function Count(): (n: nat)
      reads this
    {
      |objects|
    }

    predicate IsConnected(id: nat)
      reads this
    {
      id in objects
    }

    method CreateObject() returns (id: nat)
      requires Valid()
      modifies this
      ensures Valid() && id !in old(objects) && objects == old(objects) + {id}
      ensures Count() == old(Count()) + 1 && nextId > old(nextId) && id >= old(nextId)
    {
      id := nextId;
      objects := objects + {id};
      nextId := nextId + 1;
    }

    /** Disposes of each of `ids`, one object at a time. */
    method DisposeObjects(ids: set<nat>)
      requires Valid() && ids <= objects
      modifies this`objects
      ensures Valid() && objects == old(objects) - ids
      ensures Count() == old(Count()) - |ids|
    {
      var remaining := ids;
      while remaining != {}
        invariant remaining <= ids && remaining <= objects
        invariant Valid() && objects == old(objects) - (ids - remaining)
        decreases remaining
      {
        var id :| id in remaining;
        DisposeObject(id);
        remaining := remaining - {id};
      }
      DifferenceSize(old(objects), ids);
    }

    method DisposeObject(id: nat)
      requires Valid()
      modifies this`objects
      ensures Valid() && objects == old(objects) - {id}
      ensures Count() == if id in old(objects) then old(Count()) - 1 else old(Count())
    {
      objects := objects - {id};
    }
  }

  /** The indices below `n`. */
  function Range(n: nat): (r: set<nat>)
    ensures forall i: int :: i in r <==> 0 <= i < n
  {
    if n == 0 then {} else Range(n - 1) + {n - 1}
  }

  lemma {:induction false} RangeSize(n: nat)
    ensures |Range(n)| == n
  {
    if n > 0 {
      var smaller := Range(n - 1);
      RangeSize(n - 1);
      assert n - 1 !in smaller;
      assert |smaller + {n - 1}| == |smaller| + 1;
    }
  }

  /** Adding a fresh key to a map adds one entry, the key and its value. */
  lemma MapAdd(m: map<nat, nat>, k: nat, v: nat)
    requires k !in m
    ensures m[k := v].Keys == m.Keys + {k} && m[k := v].Values == m.Values + {v}
    ensures |m[k := v]| == |m| + 1
  {
    assert m[k := v].Keys == m.Keys + {k};
  }

  lemma DifferenceSize(a: set<nat>, b: set<nat>)
    requires b <= a
    ensures |a - b| == |a| - |b|
  {
    assert a == (a - b) + b;
  }

  lemma SubsetSize(a: set<nat>, b: set<nat>)
    requires a <= b
    ensures |a| <= |b|
    ensures a < b ==> |a| < |b|
  {
    assert b == a + (b - a);
    assert a * (b - a) == {};
    if a < b {
      var x :| x in b && x !in a;
      assert x in b - a;
    }
  }

  /** The barrels a player has yet to collect, of `barrelCount` in all. */
  function Uncollected(barrelCount: nat, collected: set<nat>): (r: set<nat>)
    ensures forall i: int :: i in r <==> 0 <= i < barrelCount && i !in collected
  {
    if barrelCount == 0 then {}
    else
      var last := barrelCount - 1;
      Uncollected(last, collected) + (if last in collected then {} else {last})
  }

  /** Considering one more barrel adds it to the uncollected ones unless it was collected. */
  lemma UncollectedStep(i: nat, collected: set<nat>)
    ensures Uncollected(i + 1, collected) == Uncollected(i, collected) + (if i in collected then {} else {i})
    ensures |Uncollected(i + 1, collected)| == |Uncollected(i, collected)| + (if i in collected then 0 else 1)
  {
    assert i !in Uncollected(i, collected);
  }

  /**
   * Collecting some but not all barrels leaves strictly fewer, but still some, to spawn; with
   * nothing collected all of them spawn.
   */
  lemma {:induction false} UncollectedBounds(barrelCount: nat, collected: set<nat>)
    ensures |Uncollected(barrelCount, collected)| <= barrelCount
    ensures collected == {} ==> |Uncollected(barrelCount, collected)| == barrelCount
    ensures (exists i :: i in collected && i < barrelCount) ==> |Uncollected(barrelCount, collected)| < barrelCount
    ensures (exists i: nat :: i !in collected && i < barrelCount) ==> |Uncollected(barrelCount, collected)| > 0
  {
    var spawned := Uncollected(barrelCount, collected);
    RangeSize(barrelCount);
    SubsetSize(spawned, Range(barrelCount));
    if collected == {} {
      assert spawned == Range(barrelCount);
    }
    if i :| i in collected && i < barrelCount {
      assert i in Range(barrelCount) && i !in spawned;
      SubsetSize(spawned, Range(barrelCount));
    }
    if i: nat :| i !in collected && i < barrelCount {
      assert i in spawned;
    }
  }

  /**
   * Creates one object for every barrel below `barrelCount` not in `collected`, and tells which
   * barrel each new object stands for.
   */
  method SpawnBarrels(objectManager: ObjectManager, barrelCount: nat, collected: set<nat>)
    returns (barrels: map<nat, nat>)
    requires objectManager.Valid()
    modifies objectManager
    ensures Spawned(objectManager, barrels, barrelCount, collected, old(objectManager.objects))
  {
    barrels := map[];
    ghost var before := objectManager.objects;
    for i := 0 to barrelCount
      invariant Spawned(objectManager, barrels, i, collected, before)
    {
      barrels := SpawnNext(objectManager, barrels, i, collected, before);
    }
  }

  /**
   * What `SpawnBarrels` has done once it considered the barrels below `upTo`: one new object
   * for each of them not in `collected`, added to the objects there were `before`.
   */
  ghost predicate Spawned(objectManager: ObjectManager, barrels: map<nat, nat>, upTo: nat,
                          collected: set<nat>, before: set<nat>)
    reads objectManager
  {
    objectManager.Valid() &&
    barrels.Values == Uncollected(upTo, collected) &&
    |barrels| == |Uncollected(upTo, collected)| &&
    barrels.Keys !! before &&
    objectManager.objects == before + barrels.Keys &&
    objectManager.Count() == |before| + |barrels|
  }

  /** Considers barrel `i`: it gets an object unless it was collected. */
  method SpawnNext(objectManager: ObjectManager, barrels: map<nat, nat>, i: nat,
                   collected: set<nat>, ghost before: set<nat>)
    returns (next: map<nat, nat>)
    requires Spawned(objectManager, barrels, i, collected, before)
    modifies objectManager
    ensures Spawned(objectManager, next, i + 1, collected, before)
  {
    if i in collected {
      next := barrels;
      UncollectedStep(i, collected);
    } else {
      next := SpawnBarrel(objectManager, barrels, i, collected, before);
    }
  }

  /** Barrel `i` was not collected: one new object stands for it. */
  method SpawnBarrel(objectManager: ObjectManager, barrels: map<nat, nat>, i: nat,
                     collected: set<nat>, ghost before: set<nat>)
    returns (next: map<nat, nat>)
    requires Spawned(objectManager, barrels, i, collected, before) && i !in collected
    modifies objectManager
    ensures Spawned(objectManager, next, i + 1, collected, before)
  {
    var barrel := objectManager.CreateObject();
    MapAdd(barrels, barrel, i);
    next := barrels[barrel := i];
    UncollectedStep(i, collected);
  }

  /**
   * Every barrel object in `playerBarrels` is one of `objects` and stands for a barrel below
   * `barrelCount`, and no object belongs to two players.
   */
  ghost predicate Tracked(playerBarrels: map<PlayerId, map<nat, nat>>, objects: set<nat>, barrelCount: nat) {
    (forall p, o :: p in playerBarrels && o in playerBarrels[p] ==>
      o in objects && playerBarrels[p][o] < barrelCount) &&
    (forall p, q :: p in playerBarrels && q in playerBarrels && p != q ==>
      playerBarrels[p].Keys !! playerBarrels[q].Keys)
  }

  /** Giving a player without barrels a set of new objects keeps the tracking sound. */
  lemma TrackedAdd(playerBarrels: map<PlayerId, map<nat, nat>>, objects: set<nat>, barrelCount: nat,
                   player: PlayerId, barrels: map<nat, nat>)
    requires Tracked(playerBarrels, objects, barrelCount) && player !in playerBarrels
    requires barrels.Keys !! objects && forall v :: v in barrels.Values ==> v < barrelCount
    ensures Tracked(playerBarrels[player := barrels], objects + barrels.Keys, barrelCount)
  {
    var after := playerBarrels[player := barrels];
    forall p, o | p in after && o in after[p]
      ensures o in objects + barrels.Keys && after[p][o] < barrelCount
    {
      if p == player {
        assert after[p][o] in barrels.Values;
      }
    }
    forall p, q | p in after && q in after && p != q
      ensures after[p].Keys !! after[q].Keys
    {
      if p == player {
        assert after[q].Keys <= objects;
      } else if q == player {
        assert after[p].Keys <= objects;
      }
    }
  }

  class RedBarrels {
    const objectManager: ObjectManager
    const barrelCount: nat
    /** Per player: each of their barrel objects, and the barrel it stands for. */
    var playerBarrels: map<PlayerId, map<nat, nat>>

    /** Every tracked barrel object is live, belongs to one player and stands for a barrel. */
    ghost predicate Valid()
      reads this, objectManager
    {
      objectManager.Valid() && Tracked(playerBarrels, objectManager.objects, barrelCount)
    }

    /** The barrel objects of `player`. */
    function BarrelsOf(player: PlayerId): (r: set<nat>)
      reads this
      ensures player !in playerBarrels ==> r == {}
    {
      if player in playerBarrels then playerBarrels[player].Keys else {}
    }

    constructor (objectManager: ObjectManager, barrelCount: nat)
      requires objectManager.Valid()
      ensures Valid() && playerBarrels == map[]
      ensures this.objectManager == objectManager && this.barrelCount == barrelCount
    {
      this.objectManager := objectManager;
      this.barrelCount := barrelCount;
      playerBarrels := map[];
    }

    /** Removes every barrel of `player` from the world and forgets them. */
    method ClearCollectablesForPlayer(player: PlayerId)
      requires Valid()
      modifies this, objectManager`objects
      ensures Valid() && player !in playerBarrels
      ensures playerBarrels == old(playerBarrels) - {player}
      ensures objectManager.objects == old(objectManager.objects) - old(BarrelsOf(player))
      ensures objectManager.Count() == old(objectManager.Count()) - |old(BarrelsOf(player))|
    {
      objectManager.DisposeObjects(BarrelsOf(player));
      playerBarrels := playerBarrels - {player};
    }

    /**
     * Replaces the barrels of `player` by one new object for every barrel not in `collected`.
     */
    method RefreshCollectablesForPlayer(player: PlayerId, collected: set<nat>)
      requires Valid()
      modifies this, objectManager
      ensures Valid() && player in playerBarrels
      ensures playerBarrels[player].Values == Uncollected(barrelCount, collected)
      ensures |playerBarrels[player]| == |Uncollected(barrelCount, collected)|
      ensures playerBarrels - {player} == old(playerBarrels) - {player}
      ensures playerBarrels[player].Keys !! old(objectManager.objects) - old(BarrelsOf(player))
      ensures objectManager.objects ==
        (old(objectManager.objects) - old(BarrelsOf(player))) + playerBarrels[player].Keys
      ensures objectManager.Count() ==
        old(objectManager.Count()) - |old(BarrelsOf(player))| + |Uncollected(barrelCount, collected)|
    {
      ClearCollectablesForPlayer(player);
      ghost var cleared := objectManager.objects;
      var barrels := SpawnBarrels(objectManager, barrelCount, collected);
      TrackedAdd(playerBarrels, cleared, barrelCount, player, barrels);
      playerBarrels := playerBarrels[player := barrels];
    }

    /** `player` shot object `id`: when it is one of their barrels, it is collected and removed. */
    method OnPlayerShootObject(player: PlayerId, id: nat) returns (barrel: Option<nat>)
      requires Valid()
      modifies this, objectManager`objects
      ensures Valid()
      ensures id in old(BarrelsOf(player)) ==>
        barrel == Some(old(playerBarrels[player][id])) &&
        !objectManager.IsConnected(id) &&
        objectManager.objects == old(objectManager.objects) - {id} &&
        objectManager.Count() == old(objectManager.Count()) - 1 &&
        playerBarrels == old(playerBarrels)[player := old(playerBarrels[player]) - {id}]
      ensures id !in old(BarrelsOf(player)) ==>
        barrel == None && objectManager.objects == old(objectManager.objects) &&
        playerBarrels == old(playerBarrels)
    {
      if player !in playerBarrels || id !in playerBarrels[player] {
        return None;
      }
      barrel := Some(playerBarrels[player][id]);
      objectManager.DisposeObject(id);
      playerBarrels := playerBarrels[player := playerBarrels[player] - {id}];
    }
  }

  /**
   * The barrel test: spawning every barrel raises the object count, spawning only those of a
   * player who collected the first fifty leaves it strictly in between, and clearing restores it.
   */
  method RefreshScenario(existing: nat, barrelCount: nat)
    returns (allSpawned: nat, halfSpawned: nat, cleared: nat)
    requires barrelCount > 50
    ensures allSpawned > existing
    ensures existing < halfSpawned < allSpawned
    ensures cleared == existing
  {
    var objectManager := new ObjectManager(existing);
    var barrels := new RedBarrels(objectManager, barrelCount);
    barrels.RefreshCollectablesForPlayer(0, {});
    UncollectedBounds(barrelCount, {});
    allSpawned := objectManager.Count();

    var firstFifty := Range(50);
    barrels.RefreshCollectablesForPlayer(0, firstFifty);
    assert 0 in firstFifty && 50 !in firstFifty;
    UncollectedBounds(barrelCount, firstFifty);
    halfSpawned := objectManager.Count();

    barrels.ClearCollectablesForPlayer(0);
    cleared := objectManager.Count();
  }

  /** Shooting one of a player's barrels disconnects it and lowers the count by one. */
  method ShootScenario(existing: nat, barrelCount: nat)
    returns (grown: int, connectedBefore: bool, connectedAfter: bool, drop: int)
    requires barrelCount > 0
    ensures grown > 0
    ensures connectedBefore && !connectedAfter && drop == 1
  {
    var objectManager := new ObjectManager(existing);
    var barrels := new RedBarrels(objectManager, barrelCount);
    barrels.RefreshCollectablesForPlayer(0, {});
    UncollectedBounds(barrelCount, {});
    var spawned := objectManager.Count();
    grown := spawned - existing;
    var first :| first in barrels.playerBarrels[0];
    connectedBefore := objectManager.IsConnected(first);
    var _ := barrels.OnPlayerShootObject(0, first);
    connectedAfter := objectManager.IsConnected(first);
    drop := spawned - objectManager.Count();
  }
}

=== FILE: strings.dfy ===
/** Small facts about strings used by the rendering and the tokenising code. */
module Strings {
  import opened Wrappers

  /** The first position of `c` in `s`, or None when `s` does not hold it. */
  function IndexOf(s: string, c: char): (r: Option<nat>)
    ensures r.Some? ==> r.value < |s| && s[r.value] == c && c !in s[..r.value]
    ensures r.None? ==> c !in s
  {
    if |s| == 0 then None
    else if s[0] == c then Some(0)
    else match IndexOf(s[1..], c)
      case None => None
      case Some(k) =>
        assert s[1..][..k] == s[1..k + 1];
        assert s[..k + 1] == [s[0]] + s[1..k + 1];
        Some(k + 1)
  }

  /** Searching a string that is `a`, then `c`, then anything finds `c` right after `a`. */
  lemma IndexOfAfterPrefix(a: string, c: char, b: string)
    requires c !in a
    ensures IndexOf(a + [c] + b, c) == Some(|a|)
  {
    var s := a + [c] + b;
    assert s[|a|] == c;
    assert s[..|a|] == a;
    assert forall k :: |a| < k <= |s| ==> s[..k][|a|] == c;
  }
}

=== FILE: wrappers.dfy ===
/** Optional values and results shared by the modules of this model. */
module Wrappers {

  /** Stands for a value that may be `null` (or absent) in the modelled code. */
  datatype Option<+T> = None | Some(value: T)

  /** Stands for an operation that either returns a value or throws. */
  datatype Result<+T, +E> = Ok(value: T) | Err(error: E)
}
